=== FILE: README.md ===
# Launch and resumption decisions of `main_train.py`, modelled in Dafny

This project models the decision logic that bootstraps a training run of the
AdaptiveFrequencyFilters training script: how `main_worker` decides between
spawning one worker process per GPU and training in the launching process,
how each spawned worker takes its device and rank, how `main` fixes the
training horizon, picks the execution mode, and recovers its starting state
from a checkpoint, a fine-tune seed or nothing.

The flat, mutable `opts` namespace becomes an immutable `RunConfig.Config`
record, one sub-record per key prefix (`dev.*`, `ddp.*`, `dataset.*`,
`scheduler.*`, recovery keys). Each step is a pure function returning a new
value:

- `wrappers.dfy` — `Option` and `Result`.
- `config.dfy` — the configuration record.
- `launch.dfy` — `main_worker` and `distributed_worker`: a `LaunchPlan` is
  either `Spawn(shared, workers)` or `InProcess(config)`.
- `horizon.dfy` — epoch-based or iteration-based horizon with sentinels.
- `mode.dfy` — CPU, single device, DistributedDataParallel or DataParallel.
- `recovery.dfy` — resume, fine-tune or fresh start; counters and best metric.
- `session.dfy` — `main` for every planned process, and the properties that
  span launch planning and the per-process steps.

Inputs the code obtains from the machine — CUDA availability, the CPU count,
the free port — are fields of a `Launch.Host` parameter. The
`DEFAULT_*` constants are fields of a `Horizon.Defaults` parameter, because
their values live in a module that is not part of this model. What
`load_checkpoint` returns is a `Recovery.Checkpoint`; in `session.dfy` each
process obtains its own from a `Session.Loader` function of its recovery keys.

Behaviours of the code worth knowing, each stated by a member below:

- `ddp.use_distributed` stays set in the non-spawn branch, so with several
  GPUs and `ddp.disable` off, a launch that does not spawn (`ddp.no_spawn`,
  or no CUDA) runs `main` in process under DistributedDataParallel
  (`Session.NoSpawnStillSelectsDdp`).
- `ddp.world_size` is rewritten only in the spawn branch and only from -1.
  A CPU run keeps its configured value, -1 by default
  (`Session.CpuRunKeepsWorldSize`).
- A `None` loader-worker count is resolved only in the spawn branch. In
  process, only -1 is replaced (`Launch.PlanLaunch`).
- A rank below 0 is only logged (main_train.py:219-221), so it is not a
  precondition anywhere. A rank holding `None` makes the comparison
  `node_rank < 0` raise a TypeError, modelled as `Failure(RankNotComparable)`.

## Model

| member | source | states |
|---|---|---|
| Launch.UseDistributed | main_train.py:232-237 | distributed mode is off whenever there is at most one GPU, whatever `ddp.disable` says, and equals `not ddp.disable` otherwise |
| Launch.BindWorker | main_train.py:198-206 | worker `i` gets device id `i` and device `cuda:i`; its rank is `start_rank + i` unless a rank is already set, in which case it is kept; every other key is unchanged |
| Launch.SpawnShared | main_train.py:247-276 | the configuration the parent hands to every worker has `ddp.rank` cleared, the start rank and port recorded, `dev.device_id` taken from `ddp.device_id`, world size -1 resolved to the GPU count (other values kept), loader workers None/-1 resolved to `cpu_count // num_gpus` (others kept), and every other key unchanged |
| Launch.WorkerPlans | main_train.py:278-282 | spawning `nprocs = n` workers yields exactly `n` worker configurations, worker `i` being the binding of local index `i` |
| Launch.PlanLaunch | main_train.py:219-296 | (with its helpers `SpawnShared` and `InProcessConfig`) fails only when `ddp.rank` is None; spawns iff there are several GPUs, distributed mode is not disabled, spawning is not disabled and CUDA is available; then one worker per GPU with device `i`, rank `start_rank + i`, the start rank and port recorded, the shared configuration being `SpawnShared`'s, world size -1 resolved to the GPU count (other values kept), loader workers None/-1 resolved to `cpu_count // num_gpus` (others kept), batch sizes, normalization and every other key unchanged; otherwise world size and rank untouched, device id None, only -1 loader workers become `cpu_count`, batch sizes multiplied by `max(1, num_gpus)`, `sync_batch_norm`/`sbn` downgraded to `batch_norm` and other names kept, and every other key (the device handle and the other `ddp.*` keys included) unchanged |
| Launch.SpawnRanksFormRange | main_train.py:260-263 | the ranks of the spawned workers are exactly the contiguous range `[start_rank, start_rank + num_gpus)` and pairwise distinct |
| Launch.DistributedNeedsSeveralGpus | main_train.py:234-237 | every planned configuration with distributed mode on has more than one GPU |
| Launch.InProcessNeverSyncNorm | main_train.py:287-288 | a configuration trained without spawned workers never carries a synchronized normalization name |
| Launch.PlanKeepsTrainingKeys | main_train.py:232-296 | launch planning leaves the horizon keys, the recovery keys and the GPU count of every planned configuration unchanged |
| Horizon.Resolve | main_train.py:67-85 | exactly one of iteration-based and epoch-based is active, as requested; the active bound is the configured one when present and positive and the fallback otherwise; the inactive dimension is its sentinel; with positive fallbacks the active bound is positive |
| Horizon.Record | main_train.py:72-82 | after resolution both `scheduler.max_epochs` and `scheduler.max_iterations` hold values: the active bound and the sentinel |
| Horizon.ResolveIdempotent | main_train.py:67-85 | for any fallback values, resolving an already resolved and recorded horizon gives the same horizon |
| Horizon.IterationBasedIgnoresEpochs | main_train.py:68-76 | an iteration-based run's horizon does not depend on the configured epoch bound |
| Horizon.EpochBasedIgnoresIterations | main_train.py:77-85 | an epoch-based run's horizon does not depend on the configured iteration bound |
| ExecutionMode.SelectMode | main_train.py:104-126 | no GPU gives CPU, one GPU gives a single device, several GPUs give DistributedDataParallel when distributed and DataParallel otherwise; every input gets exactly one mode |
| ExecutionMode.ReplicatedIffSeveralGpus | main_train.py:104-126 | for a non-negative GPU count the model is replicated iff there is more than one GPU |
| Recovery.InitialBestMetric | main_train.py:150-152 | the best metric starts at 0.0 when maximising and at +infinity when minimising |
| Recovery.SelectPath | main_train.py:156-175 | resume applies iff a resume location is set or auto-resume is on; fine-tune applies iff neither holds and a fine-tune location is set, carrying that location |
| Recovery.Recover | main_train.py:150-178 | on the resume path epoch, iteration and best metric all come from the loaded checkpoint and the model, optimizer and scaler are restored; otherwise the counters are 0 and the best metric keeps its polarity default; only fine-tuning transplants weights; on the resume path an EMA copy exists iff `load_checkpoint` returned one, on the other paths iff EMA is enabled |
| Recovery.CountersNeverMixed | main_train.py:150-178 | the starting counters and best metric are either all fresh defaults or all from the one checkpoint, the latter only on the resume path |
| Recovery.ResumeOverridesFinetune | main_train.py:159-175 | when resuming, a fine-tune location has no effect on the recovered state |
| Recovery.OnlyResumeReadsCheckpoint | main_train.py:159-178 | off the resume path the checkpoint contents do not influence the recovered state |
| Session.PrepareAll | main_train.py:208-210 | every planned process runs `main` (`PrepareRun`: horizon, mode, and recovery from the checkpoint that process loads itself) on its own configuration, one session per process in order |
| Session.LaunchRun | main_train.py:245-296 | launching fails only on a None rank; it yields at least one session, one per GPU when several are produced; although each process resolves its horizon and loads its checkpoint itself, all sessions agree on the horizon and the recovered state, because planning leaves those keys untouched; a spawning launch yields one DistributedDataParallel session per GPU |
| Session.DdpNeedsSeveralGpus | main_train.py:111 | a planned process only selects DistributedDataParallel when there is more than one GPU |
| Session.NoSpawnStillSelectsDdp | main_train.py:284-296 | with several GPUs and distributed mode on, a non-spawning launch trains in process under DistributedDataParallel with no device id and both train and validation batch sizes scaled by the GPU count |
| Session.CpuRunKeepsWorldSize | main_train.py:104-108 | a run without GPUs is planned in process, selects CPU, keeps the configured world size and the base train and validation batch sizes |

## Left out

- Experiment tracking (`wandb` initialisation and the `has_wandb` gate, main_train.py:32-54): an external service with side effects.
- Directory creation, `common.exp_loc` and all logging, including the log line for a negative rank (main_train.py:219-230): file-system and output I/O.
- The free-port probe `_find_free_port` (main_train.py:266-276): socket I/O with a known race; the port is the opaque `Host.freePort`.
- `torch.multiprocessing.spawn` as concurrency, `torch.cuda.set_device`, and the `distributed_init` rendezvous that replaces the rank with the node rank (main_train.py:200, 208-209): the worker plans carry the locally computed rank only.
- Data-loader construction (`create_train_val_loader`, main_train.py:63) and the `train_sampler` handed to `Trainer.run` (main_train.py:195): dataset code that is not part of this model.
- Model, loss, optimizer, scheduler, gradient scaler and EMA construction, `memory_format`, and the `.to(device)`, DistributedDataParallel and DataParallel wrapping: torch calls; only the mode tag is modelled.
- `load_checkpoint`, `load_model_state` and `Trainer.run`: their files are not part of this model. The checkpoint result is a parameter, and the `Origin` tags record which collaborator supplied each piece of state. Failures inside them (a corrupt checkpoint) are not modelled.
- Recovery.Recover: on the fine-tune path, an EMA copy is taken to exist exactly when EMA is enabled, i.e. `load_model_state` is assumed to return an EMA model exactly when given one; its code is not part of this model.
- Session.LaunchRun: `load_checkpoint` is taken to depend only on the recovery keys of the configuration it is given (a `Loader` of `RunOpts`); what it reads from the file system or from other keys is not modelled.
- `device_setup`, `get_training_arguments` and `is_master`: not part of this model; the configuration is taken as already set up by them, and master-only logging is left out with the rest of the logging.
- The EMA momentum and other float settings: numerics.
- The values of `DEFAULT_EPOCHS`, `DEFAULT_ITERATIONS`, `DEFAULT_MAX_EPOCHS`, `DEFAULT_MAX_ITERATIONS`: not part of this model, so whether a sentinel is large enough to never end training first is not stated.
- Horizon.Resolve: the positive-bound guarantee is stated under positive fallbacks, since the fallback values are parameters.
- The differing `getattr` defaults for `dev.num_gpus` (1 in `main_worker`, 0 in `main`): every configuration field is present, so neither default is read.
- `affnet/modules/__init__.py`: only re-exports network layers and holds no launch logic.

=== FILE: config.dfy ===
/** The run configuration that the launcher reads and rewrites.

    `main_train.py` keeps one flat namespace of dotted keys (`dev.num_gpus`,
    `ddp.rank`, ...) and mutates it in place. Here each key prefix becomes a
    record and every step returns a new `Config`. A field holds the value the
    code would read with its `getattr` default already applied; `None` stands
    for a key whose value is Python's `None`. */
module RunConfig {
  import opened Wrappers

  /** `dev.device`: a torch device handle, reduced to its kind and index.
      Outside spawned workers the handle comes from the device set-up that
      runs before launch planning, which may leave it on the CPU or on CUDA
      without an index; a spawned worker always holds `cuda:i`. */
  datatype Device = CpuDevice | Cuda(index: Option<int>)

  /** The `dev.*` keys. */
  datatype DevOpts = DevOpts(
    numGpus: int,             // dev.num_gpus
    deviceId: Option<int>,    // dev.device_id
    device: Device)           // dev.device

  /** The `ddp.*` keys. */
  datatype DdpOpts = DdpOpts(
    disable: bool,            // ddp.disable
    noSpawn: bool,            // ddp.no_spawn
    deviceId: Option<int>,    // ddp.device_id
    useDistributed: bool,     // ddp.use_distributed, written by the launcher
    worldSize: int,           // ddp.world_size; -1 asks for one process per GPU
    rank: Option<int>,        // ddp.rank
    startRank: Option<int>,   // ddp.start_rank, written by the launcher
    distPort: Option<int>)    // ddp.dist_port, written by the launcher

  /** The `dataset.*` keys the launcher touches. */
  datatype DatasetOpts = DatasetOpts(
    workers: Option<int>,     // dataset.workers; -1 asks for one per CPU
    trainBatchSize: int,      // dataset.train_batch_size0
    valBatchSize: int)        // dataset.val_batch_size0

  /** The `scheduler.*` keys that fix the training horizon. */
  datatype SchedulerOpts = SchedulerOpts(
    isIterationBased: bool,        // scheduler.is_iteration_based
    maxEpochs: Option<int>,        // scheduler.max_epochs
    maxIterations: Option<int>)    // scheduler.max_iterations

  /** The keys that choose how training state is recovered. */
  datatype RunOpts = RunOpts(
    checkpointMetricMax: bool,     // stats.checkpoint_metric_max
    resume: Option<string>,        // common.resume
    finetune: Option<string>,      // common.finetune_imagenet1k
    autoResume: bool,              // common.auto_resume
    emaEnable: bool)               // ema.enable

  datatype Config = Config(
    dev: DevOpts,
    ddp: DdpOpts,
    dataset: DatasetOpts,
    normName: string,              // model.normalization.name
    scheduler: SchedulerOpts,
    run: RunOpts)
}

=== FILE: horizon.dfy ===
/** The training-horizon policy of `main` (main_train.py:67-85): a run is
    bounded either by epochs or by iterations, never both. The inactive
    dimension is set to a sentinel so its termination check never fires
    first. */
module Horizon {
  import opened Wrappers
  import opened RunConfig

  /** The constants DEFAULT_EPOCHS, DEFAULT_ITERATIONS, DEFAULT_MAX_EPOCHS and
      DEFAULT_MAX_ITERATIONS; their values are not part of this model. */
  datatype Defaults = Defaults(
    epochs: int,          // fallback epoch bound
    iterations: int,      // fallback iteration bound
    maxEpochs: int,       // epoch sentinel of an iteration-based run
    maxIterations: int)   // iteration sentinel of an epoch-based run

  /** The documented fallbacks are usable bounds. */
  predicate PositiveFallbacks(d: Defaults) {
    d.epochs > 0 && d.iterations > 0
  }

  datatype Horizon =
    | EpochBased(maxEpochs: int, iterationSentinel: int)
    | IterationBased(maxIterations: int, epochSentinel: int)
  {
    /** The bound that ends training in this mode. */
    function ActiveBound(): int {
      match this
      case EpochBased(e, _) => e
      case IterationBased(i, _) => i
    }
  }

  /** A configured bound is kept only when it is present and positive. */
  predicate Usable(bound: Option<int>) {
    bound.Some? && bound.value > 0
  }

  /** Resolve the horizon from the scheduler keys. */
  function Resolve(s: SchedulerOpts, d: Defaults): (h: Horizon)
    ensures h.IterationBased? <==> s.isIterationBased
    ensures h.IterationBased? ==>
      && h.epochSentinel == d.maxEpochs
      && (Usable(s.maxIterations) ==> h.maxIterations == s.maxIterations.value)
      && (!Usable(s.maxIterations) ==> h.maxIterations == d.iterations)
    ensures h.EpochBased? ==>
      && h.iterationSentinel == d.maxIterations
      && (Usable(s.maxEpochs) ==> h.maxEpochs == s.maxEpochs.value)
      && (!Usable(s.maxEpochs) ==> h.maxEpochs == d.epochs)
    ensures PositiveFallbacks(d) ==> h.ActiveBound() > 0
  {
    if s.isIterationBased then
      var maxIterations := if Usable(s.maxIterations) then s.maxIterations.value else d.iterations;
      IterationBased(maxIterations, d.maxEpochs)
    else
      var maxEpochs := if Usable(s.maxEpochs) then s.maxEpochs.value else d.epochs;
      EpochBased(maxEpochs, d.maxIterations)
  }

  /** Write a resolved horizon back into `scheduler.max_epochs` and
      `scheduler.max_iterations`; the mode flag is kept. */
  function Record(s: SchedulerOpts, h: Horizon): (s': SchedulerOpts)
    ensures s'.isIterationBased == s.isIterationBased
    ensures s'.maxEpochs.Some? && s'.maxIterations.Some?
    ensures h.IterationBased? ==>
      s'.maxIterations == Some(h.maxIterations) && s'.maxEpochs == Some(h.epochSentinel)
    ensures h.EpochBased? ==>
      s'.maxEpochs == Some(h.maxEpochs) && s'.maxIterations == Some(h.iterationSentinel)
  {
    match h
    case IterationBased(i, e) => s.(maxEpochs := Some(e), maxIterations := Some(i))
    case EpochBased(e, i) => s.(maxEpochs := Some(e), maxIterations := Some(i))
  }

  /** Resolving a configuration whose horizon was already resolved and
      recorded changes nothing: the policy is idempotent, whatever the
      fallbacks are. */
  lemma ResolveIdempotent(s: SchedulerOpts, d: Defaults)
    ensures Resolve(Record(s, Resolve(s, d)), d) == Resolve(s, d)
  {
  }

  /** An iteration-based run ignores whatever epoch bound was configured. */
  lemma IterationBasedIgnoresEpochs(s: SchedulerOpts, d: Defaults, epochs: Option<int>)
    requires s.isIterationBased
    ensures Resolve(s.(maxEpochs := epochs), d) == Resolve(s, d)
  {
  }

  /** An epoch-based run ignores whatever iteration bound was configured. */
  lemma EpochBasedIgnoresIterations(s: SchedulerOpts, d: Defaults, iterations: Option<int>)
    requires !s.isIterationBased
    ensures Resolve(s.(maxIterations := iterations), d) == Resolve(s, d)
  {
  }
}

=== FILE: launch.dfy ===
/** Launch planning: the decisions `main_worker` takes before training starts
    (main_train.py:232-296), and the identity each spawned worker gives itself
    in `distributed_worker` (main_train.py:198-206).

    The outcome is a `LaunchPlan`: either one configuration per spawned worker
    process, or the single configuration the launching process trains with. */
module Launch {
  import opened Wrappers
  import opened RunConfig

  /** What the launcher learns from the machine rather than from the
      configuration: whether CUDA is usable, `multiprocessing.cpu_count()`, and
      the port the free-port probe returned (an opaque value here). */
  datatype Host = Host(cudaAvailable: bool, cpuCount: nat, freePort: int)

  /** `ddp.rank` holds `None` when the launcher compares it with 0; Python
      raises a TypeError there. */
  datatype LaunchError = RankNotComparable

  datatype LaunchPlan =
    | Spawn(shared: Config, workers: seq<Config>)   // one process per GPU
    | InProcess(config: Config)                     // this process trains

  /** Normalization names that need a process group. */
  const SyncNormNames: set<string> := {"sync_batch_norm", "sbn"}

  /** The normalization every synchronized variant is downgraded to. */
  const PlainNormName: string := "batch_norm"

  function Max(a: int, b: int): int {
    if a < b then b else a
  }

  /** Distributed mode as `main_worker` records it in `ddp.use_distributed`:
      an explicit request is overridden whenever there is at most one GPU. */
  function UseDistributed(numGpus: int, disable: bool): (r: bool)
    ensures numGpus <= 1 ==> !r
    ensures numGpus > 1 ==> r == !disable
  {
    if numGpus <= 1 then false else !disable
  }

  /** The configuration the parent process hands to every spawned worker,
      after resolving world size, loader workers, start rank and port. */
  function SpawnShared(c: Config, host: Host, startRank: int): (r: Config)
    requires c.dev.numGpus > 1
    // the rank is cleared so that each worker derives its own from the start rank
    ensures r.ddp.rank.None?
    ensures r.ddp.startRank == Some(startRank) && r.ddp.distPort == Some(host.freePort)
    ensures r.dev.deviceId == c.ddp.deviceId
    ensures c.ddp.worldSize == -1 ==> r.ddp.worldSize == c.dev.numGpus
    ensures c.ddp.worldSize != -1 ==> r.ddp.worldSize == c.ddp.worldSize
    ensures c.dataset.workers in {None, Some(-1)} ==>
      r.dataset.workers == Some(host.cpuCount / c.dev.numGpus)
    ensures c.dataset.workers !in {None, Some(-1)} ==> r.dataset.workers == c.dataset.workers
    // nothing else changes: batch sizes, normalization, horizon and recovery keys
    ensures r.dataset.(workers := c.dataset.workers) == c.dataset
    ensures r.(dev := c.dev, ddp := c.ddp, dataset := c.dataset) == c
    ensures r.dev.(deviceId := c.dev.deviceId) == c.dev
    ensures r.ddp.(worldSize := c.ddp.worldSize, rank := c.ddp.rank,
                   startRank := c.ddp.startRank, distPort := c.ddp.distPort) == c.ddp
  {
    var worldSize := if c.ddp.worldSize == -1 then c.dev.numGpus else c.ddp.worldSize;
    var workers :=
      if c.dataset.workers == Some(-1) || c.dataset.workers.None?
      then Some(host.cpuCount / c.dev.numGpus)
      else c.dataset.workers;
    c.(dev := c.dev.(deviceId := c.ddp.deviceId),
       ddp := c.ddp.(worldSize := worldSize, rank := None,
                     startRank := Some(startRank), distPort := Some(host.freePort)),
       dataset := c.dataset.(workers := workers))
  }

  /** `distributed_worker` for local index `i`: the worker is bound to CUDA
      device `i` and, unless a rank was already set, takes rank
      `startRank + i`. Nothing else in the configuration changes. */
  function BindWorker(i: nat, shared: Config, startRank: int): (w: Config)
    ensures w.dev.deviceId == Some(i) && w.dev.device == Cuda(Some(i))
    ensures shared.ddp.rank.None? ==> w.ddp.rank == Some(startRank + i)
    ensures shared.ddp.rank.Some? ==> w.ddp.rank == shared.ddp.rank
    ensures w.dev.numGpus == shared.dev.numGpus
    ensures w.ddp.(rank := shared.ddp.rank) == shared.ddp
    ensures w.(dev := shared.dev, ddp := shared.ddp) == shared
  {
    var rank := if shared.ddp.rank.None? then Some(startRank + i) else shared.ddp.rank;
    shared.(dev := shared.dev.(deviceId := Some(i), device := Cuda(Some(i))),
            ddp := shared.ddp.(rank := rank))
  }

  /** The workers `torch.multiprocessing.spawn` starts with `nprocs = n`:
      worker `i` is `distributed_worker(i, ...)`. */
  function WorkerPlans(shared: Config, startRank: int, n: nat): (ws: seq<Config>)
    ensures |ws| == n
    ensures forall i :: 0 <= i < n ==> ws[i] == BindWorker(i, shared, startRank)
  {
    if n == 0 then [] else WorkerPlans(shared, startRank, n - 1) + [BindWorker(n - 1, shared, startRank)]
  }

  /** The non-spawn branch: loader workers, normalization downgrade, batch
      scaling, and no fixed device id. */
  function InProcessConfig(c: Config, host: Host): Config {
    var workers := if c.dataset.workers == Some(-1) then Some(host.cpuCount) else c.dataset.workers;
    var norm := if c.normName in SyncNormNames then PlainNormName else c.normName;
    var scale := Max(1, c.dev.numGpus);
    c.(dev := c.dev.(deviceId := None),
       dataset := c.dataset.(workers := workers,
                             trainBatchSize := c.dataset.trainBatchSize * scale,
                             valBatchSize := c.dataset.valBatchSize * scale),
       normName := norm)
  }

  /** `main_worker` from reading `dev.num_gpus` onward. */
  function PlanLaunch(c: Config, host: Host): (r: Result<LaunchPlan, LaunchError>)
    // the rank check is the only way the planner itself fails
    ensures r.Failure? <==> c.ddp.rank.None?
    // which branch is taken
    ensures r.Success? ==>
      (r.value.Spawn? <==>
         c.dev.numGpus > 1 && !c.ddp.disable && !c.ddp.noSpawn && host.cudaAvailable)
    // spawn: one worker per GPU, worker i on device i with rank start + i
    ensures r.Success? && r.value.Spawn? ==>
      && |r.value.workers| == c.dev.numGpus
      && forall i :: 0 <= i < |r.value.workers| ==>
           && r.value.workers[i].dev.deviceId == Some(i)
           && r.value.workers[i].dev.device == Cuda(Some(i))
           && r.value.workers[i].ddp.rank == Some(c.ddp.rank.value + i)
           && r.value.workers[i].ddp.startRank == Some(c.ddp.rank.value)
           && r.value.workers[i].ddp.distPort == Some(host.freePort)
           && r.value.workers[i].ddp.useDistributed
    // spawn: world size -1 becomes the GPU count, anything else is kept
    ensures r.Success? && r.value.Spawn? ==>
      forall i :: 0 <= i < |r.value.workers| ==>
        && (c.ddp.worldSize == -1 ==> r.value.workers[i].ddp.worldSize == c.dev.numGpus)
        && (c.ddp.worldSize != -1 ==> r.value.workers[i].ddp.worldSize == c.ddp.worldSize)
    // spawn: an unset or -1 worker count becomes an equal share of the CPUs
    ensures r.Success? && r.value.Spawn? ==>
      forall i :: 0 <= i < |r.value.workers| ==>
        && (c.dataset.workers in {None, Some(-1)} ==>
              r.value.workers[i].dataset.workers == Some(host.cpuCount / c.dev.numGpus))
        && (c.dataset.workers !in {None, Some(-1)} ==>
              r.value.workers[i].dataset.workers == c.dataset.workers)
    // spawn: per-process batch sizes and the normalization name are untouched
    ensures r.Success? && r.value.Spawn? ==>
      forall i :: 0 <= i < |r.value.workers| ==>
        && r.value.workers[i].dataset.trainBatchSize == c.dataset.trainBatchSize
        && r.value.workers[i].dataset.valBatchSize == c.dataset.valBatchSize
        && r.value.workers[i].normName == c.normName
    // spawn: the shared configuration is the parent's, as `SpawnShared` describes it
    ensures r.Success? && r.value.Spawn? ==>
      r.value.shared == SpawnShared(c.(ddp := c.ddp.(useDistributed := true)), host, c.ddp.rank.value)
    // spawn: nothing else changes in any worker's configuration
    ensures r.Success? && r.value.Spawn? ==>
      forall i :: 0 <= i < |r.value.workers| ==>
        && r.value.workers[i].(dev := c.dev, ddp := c.ddp, dataset := c.dataset) == c
        && r.value.workers[i].ddp.(worldSize := c.ddp.worldSize, rank := c.ddp.rank,
                                   startRank := c.ddp.startRank, distPort := c.ddp.distPort,
                                   useDistributed := c.ddp.useDistributed) == c.ddp
        && r.value.workers[i].dev.(deviceId := c.dev.deviceId, device := c.dev.device) == c.dev
        && r.value.workers[i].dataset.(workers := c.dataset.workers) == c.dataset
    // in process: world size and rank are untouched, distributed mode is recorded
    ensures r.Success? && r.value.InProcess? ==>
      && r.value.config.ddp.worldSize == c.ddp.worldSize
      && r.value.config.ddp.rank == c.ddp.rank
      && r.value.config.ddp.useDistributed == UseDistributed(c.dev.numGpus, c.ddp.disable)
      && r.value.config.dev.deviceId.None?
    // in process: only -1 becomes the CPU count; None stays None
    ensures r.Success? && r.value.InProcess? ==>
      && (c.dataset.workers == Some(-1) ==> r.value.config.dataset.workers == Some(host.cpuCount))
      && (c.dataset.workers != Some(-1) ==> r.value.config.dataset.workers == c.dataset.workers)
    // in process: one process drives every GPU, so batches grow with the GPU count
    ensures r.Success? && r.value.InProcess? ==>
      && r.value.config.dataset.trainBatchSize == c.dataset.trainBatchSize * Max(1, c.dev.numGpus)
      && r.value.config.dataset.valBatchSize == c.dataset.valBatchSize * Max(1, c.dev.numGpus)
    // in process: synchronized normalization is downgraded, anything else kept
    ensures r.Success? && r.value.InProcess? ==>
      && (c.normName in SyncNormNames ==> r.value.config.normName == PlainNormName)
      && (c.normName !in SyncNormNames ==> r.value.config.normName == c.normName)
    // in process: nothing else changes, the device handle and the other ddp keys included
    ensures r.Success? && r.value.InProcess? ==>
      && r.value.config.dev.(deviceId := c.dev.deviceId) == c.dev
      && r.value.config.ddp.(useDistributed := c.ddp.useDistributed) == c.ddp
      && r.value.config.(dev := c.dev, ddp := c.ddp, dataset := c.dataset,
                         normName := c.normName) == c
  {
    if c.ddp.rank.None? then
      Failure(RankNotComparable)
    else
      var useDistributed := UseDistributed(c.dev.numGpus, c.ddp.disable);
      var c1 := c.(ddp := c.ddp.(useDistributed := useDistributed));
      if useDistributed && !c.ddp.noSpawn && host.cudaAvailable then
        var startRank := c.ddp.rank.value;
        var shared := SpawnShared(c1, host, startRank);
        Success(Spawn(shared, WorkerPlans(shared, startRank, c.dev.numGpus)))
      else
        Success(InProcess(InProcessConfig(c1, host)))
  }

  /** The planned configurations that reach training: every spawned worker,
      or the one in-process configuration. */
  function PlannedConfigs(p: LaunchPlan): seq<Config> {
    match p
    case Spawn(_, workers) => workers
    case InProcess(config) => [config]
  }

  /** The locally computed ranks of a list of workers. */
  function Ranks(ws: seq<Config>): set<int> {
    set i | 0 <= i < |ws| && ws[i].ddp.rank.Some? :: ws[i].ddp.rank.value
  }

  /** The spawned ranks are exactly the contiguous range
      `[start, start + num_gpus)`, one worker per rank. */
  lemma {:induction false} SpawnRanksFormRange(c: Config, host: Host)
    requires PlanLaunch(c, host).Success? && PlanLaunch(c, host).value.Spawn?
    ensures var ws := PlanLaunch(c, host).value.workers;
      && (forall r :: r in Ranks(ws) <==> c.ddp.rank.value <= r < c.ddp.rank.value + c.dev.numGpus)
      && (forall i, j :: 0 <= i < j < |ws| ==> ws[i].ddp.rank != ws[j].ddp.rank)
  {
    var ws := PlanLaunch(c, host).value.workers;
    var start := c.ddp.rank.value;
    forall r | start <= r < start + c.dev.numGpus
      ensures r in Ranks(ws)
    {
      var i := r - start;
      assert ws[i].ddp.rank == Some(r);
    }
  }

  /** Every configuration the launcher lets train has distributed mode off
      unless there are several GPUs. */
  lemma DistributedNeedsSeveralGpus(c: Config, host: Host)
    requires PlanLaunch(c, host).Success?
    ensures forall k :: 0 <= k < |PlannedConfigs(PlanLaunch(c, host).value)| ==>
      var p := PlannedConfigs(PlanLaunch(c, host).value)[k];
      p.ddp.useDistributed ==> p.dev.numGpus > 1
  {
  }

  /** A synchronized normalization never survives into a run without a
      spawned process group. */
  lemma InProcessNeverSyncNorm(c: Config, host: Host)
    requires PlanLaunch(c, host).Success? && PlanLaunch(c, host).value.InProcess?
    ensures PlanLaunch(c, host).value.config.normName !in SyncNormNames
  {
  }

  /** Launch planning touches only device, distributed, loader and
      normalization settings: the horizon and recovery keys reach every
      planned configuration unchanged. */
  lemma PlanKeepsTrainingKeys(c: Config, host: Host)
    requires PlanLaunch(c, host).Success?
    ensures forall k :: 0 <= k < |PlannedConfigs(PlanLaunch(c, host).value)| ==>
      var p := PlannedConfigs(PlanLaunch(c, host).value)[k];
      p.scheduler == c.scheduler && p.run == c.run && p.dev.numGpus == c.dev.numGpus
  {
  }
}

=== FILE: mode.dfy ===
/** The execution mode `main` picks for the model (main_train.py:104-126):
    plain CPU, one device, DistributedDataParallel, or in-process
    DataParallel. */
module ExecutionMode {

  datatype Mode = Cpu | SingleDevice | Ddp | DataParallel

  /** The four modes are tried in order: no GPU, one GPU, distributed, and
      DataParallel for everything left (a negative GPU count included). */
  function SelectMode(numGpus: int, isDistributed: bool): (m: Mode)
    ensures m == Cpu <==> numGpus == 0
    ensures m == SingleDevice <==> numGpus == 1
    ensures m == Ddp <==> numGpus != 0 && numGpus != 1 && isDistributed
    ensures m == DataParallel <==> numGpus != 0 && numGpus != 1 && !isDistributed
  {
    if numGpus == 0 then Cpu
    else if numGpus == 1 then SingleDevice
    else if isDistributed then Ddp
    else DataParallel
  }

  /** A mode that replicates the model over several devices. */
  predicate Replicated(m: Mode) {
    m == Ddp || m == DataParallel
  }

  /** With a GPU count the launcher can observe, the model is replicated
      exactly when there are several GPUs, whatever distributed mode says. */
  lemma ReplicatedIffSeveralGpus(numGpus: nat, isDistributed: bool)
    ensures Replicated(SelectMode(numGpus, isDistributed)) <==> numGpus > 1
  {
  }
}

=== FILE: recovery.dfy ===
/** Recovery of training state in `main` (main_train.py:150-178): a full
    resume from a checkpoint, a weights-only fine-tune from a seed, or a
    fresh run, chosen in that order of priority. */
module Recovery {
  import opened Wrappers
  import opened RunConfig

  /** The tracked best metric; `PosInfinity` is Python's `math.inf`. */
  datatype Metric = Finite(value: real) | PosInfinity

  /** What `load_checkpoint` hands back besides the restored modules: the
      counters and best metric of the one checkpoint it read, and whether
      the EMA model it returns is present (not `None`). */
  datatype Checkpoint = Checkpoint(epoch: int, iteration: int, bestMetric: Metric, ema: bool)

  datatype Path = ResumePath | FinetunePath(seed: string) | FreshPath

  /** Where a piece of training state came from. */
  datatype Origin = Constructed | Restored | Transplanted

  /** The state handed to the training engine. */
  datatype RunState = RunState(
    model: Origin,
    optimizer: Origin,
    scaler: Origin,
    ema: Option<Origin>,
    startEpoch: int,
    startIteration: int,
    bestMetric: Metric)

  /** The best metric before any checkpoint is read: 0.0 when a larger metric
      is better, +infinity when a smaller one is. */
  function InitialBestMetric(maximize: bool): (m: Metric)
    ensures maximize ==> m == Finite(0.0)
    ensures !maximize ==> m == PosInfinity
  {
    if maximize then Finite(0.0) else PosInfinity
  }

  /** Resume (an explicit location or auto-resume) wins over fine-tuning,
      which wins over a fresh run. */
  function SelectPath(o: RunOpts): (p: Path)
    ensures p.ResumePath? <==> o.resume.Some? || o.autoResume
    ensures p.FinetunePath? <==> o.resume.None? && !o.autoResume && o.finetune.Some?
    ensures p.FinetunePath? ==> o.finetune == Some(p.seed)
  {
    if o.resume.Some? || o.autoResume then ResumePath
    else if o.finetune.Some? then FinetunePath(o.finetune.value)
    else FreshPath
  }

  /** Counters and best metric as a fresh run starts them. */
  predicate FreshCounters(s: RunState, maximize: bool) {
    s.startEpoch == 0 && s.startIteration == 0 && s.bestMetric == InitialBestMetric(maximize)
  }

  /** Counters and best metric all taken from one checkpoint. */
  predicate CountersFrom(s: RunState, ck: Checkpoint) {
    s.startEpoch == ck.epoch && s.startIteration == ck.iteration && s.bestMetric == ck.bestMetric
  }

  /** Build the starting state. `loaded` is what `load_checkpoint` returns;
      it is only consulted on the resume path. */
  function Recover(o: RunOpts, loaded: Checkpoint): (s: RunState)
    ensures SelectPath(o).ResumePath? ==> CountersFrom(s, loaded)
    ensures !SelectPath(o).ResumePath? ==> FreshCounters(s, o.checkpointMetricMax)
    ensures s.optimizer == Restored <==> SelectPath(o).ResumePath?
    ensures s.scaler == Restored <==> SelectPath(o).ResumePath?
    ensures s.model == Restored <==> SelectPath(o).ResumePath?
    ensures s.model == Transplanted <==> SelectPath(o).FinetunePath?
    ensures SelectPath(o).ResumePath? ==> (s.ema.Some? <==> loaded.ema)
    ensures !SelectPath(o).ResumePath? ==> (s.ema.Some? <==> o.emaEnable)
    ensures s.ema.Some? ==> s.ema.value == s.model
  {
    var ema := if o.emaEnable then Some(Constructed) else None;
    var initial := RunState(Constructed, Constructed, Constructed, ema, 0, 0,
                          InitialBestMetric(o.checkpointMetricMax));
    match SelectPath(o)
    case ResumePath =>
      initial.(model := Restored, optimizer := Restored, scaler := Restored,
             ema := if loaded.ema then Some(Restored) else None,
             startEpoch := loaded.epoch, startIteration := loaded.iteration,
             bestMetric := loaded.bestMetric)
    case FinetunePath(_) =>
      initial.(model := Transplanted, ema := if o.emaEnable then Some(Transplanted) else None)
    case FreshPath => initial
  }

  /** Counters and best metric are never a mix of fresh defaults and
      checkpoint values: either all three are fresh, or all three come from
      the checkpoint, and the latter only on the resume path. */
  lemma CountersNeverMixed(o: RunOpts, loaded: Checkpoint)
    ensures FreshCounters(Recover(o, loaded), o.checkpointMetricMax)
         || (SelectPath(o).ResumePath? && CountersFrom(Recover(o, loaded), loaded))
  {
  }

  /** When resuming, a configured fine-tune seed has no effect at all. */
  lemma ResumeOverridesFinetune(o: RunOpts, loaded: Checkpoint, seed: Option<string>)
    requires o.resume.Some? || o.autoResume
    ensures Recover(o.(finetune := seed), loaded) == Recover(o, loaded)
  {
  }

  /** Off the resume path the checkpoint result plays no part. */
  lemma OnlyResumeReadsCheckpoint(o: RunOpts, a: Checkpoint, b: Checkpoint)
    requires !SelectPath(o).ResumePath?
    ensures Recover(o, a) == Recover(o, b)
  {
  }
}

=== FILE: session.dfy ===
/** What every training process does once launched: `main` resolves the
    horizon, picks the execution mode and recovers the starting state, then
    hands them to the training engine (main_train.py:55-195). This module
    puts launch planning and those steps together. */
module Session {
  import opened Wrappers
  import opened RunConfig
  import opened Launch
  import opened Horizon
  import opened ExecutionMode
  import opened Recovery

  /** The resolved pieces a process gives the training engine. */
  datatype Session = Session(horizon: Horizon, mode: Mode, state: RunState)

  /** `load_checkpoint` as each process calls it: its result depends only on
      the recovery keys of that process's own configuration. */
  type Loader = RunOpts -> Checkpoint

  /** `main` for one planned configuration; the process loads its own
      checkpoint. */
  function PrepareRun(c: Config, d: Defaults, load: Loader): Session {
    Session(Resolve(c.scheduler, d),
            SelectMode(c.dev.numGpus, c.ddp.useDistributed),
            Recover(c.run, load(c.run)))
  }

  /** The sessions of every process a launch starts, one `main` per
      process. */
  function PrepareAll(configs: seq<Config>, d: Defaults, load: Loader): (ss: seq<Session>)
    ensures |ss| == |configs|
    ensures forall i :: 0 <= i < |configs| ==> ss[i] == PrepareRun(configs[i], d, load)
  {
    if configs == [] then []
    else [PrepareRun(configs[0], d, load)] + PrepareAll(configs[1..], d, load)
  }

  /** Launch and prepare every process. When workers are spawned there is
      one session per GPU, all of them distributed. Every process resolves
      its own horizon and loads its own checkpoint, yet all of them agree:
      planning leaves the horizon and recovery keys untouched, so no worker
      derives a different training plan from the shared configuration. */
  function LaunchRun(c: Config, host: Host, d: Defaults, load: Loader)
    : (r: Result<seq<Session>, LaunchError>)
    ensures r.Failure? <==> c.ddp.rank.None?
    ensures r.Success? ==> |r.value| >= 1
    ensures r.Success? && |r.value| > 1 ==> |r.value| == c.dev.numGpus
    ensures r.Success? ==> forall i :: 0 <= i < |r.value| ==>
      && r.value[i].horizon == Resolve(c.scheduler, d)
      && r.value[i].state == Recover(c.run, load(c.run))
    ensures r.Success? && c.dev.numGpus > 1 && !c.ddp.disable && !c.ddp.noSpawn
            && host.cudaAvailable ==>
      |r.value| == c.dev.numGpus && forall i :: 0 <= i < |r.value| ==> r.value[i].mode == Ddp
  {
    match PlanLaunch(c, host)
    case Failure(e) => Failure(e)
    case Success(plan) =>
      PlanKeepsTrainingKeys(c, host);
      Success(PrepareAll(PlannedConfigs(plan), d, load))
  }

  /** Every planned configuration that selects DistributedDataParallel has
      several GPUs: distributed mode never survives a launch with at most
      one GPU. */
  lemma DdpNeedsSeveralGpus(c: Config, host: Host, d: Defaults, load: Loader)
    requires PlanLaunch(c, host).Success?
    ensures forall k :: 0 <= k < |PlannedConfigs(PlanLaunch(c, host).value)| ==>
      var p := PlannedConfigs(PlanLaunch(c, host).value)[k];
      PrepareRun(p, d, load).mode == Ddp ==> p.dev.numGpus > 1
  {
    DistributedNeedsSeveralGpus(c, host);
  }

  /** With several GPUs and distributed mode left on, a launch that does not
      spawn (`ddp.no_spawn`, or no CUDA) still keeps `ddp.use_distributed`
      set, so the one in-process configuration selects
      DistributedDataParallel rather than DataParallel, with no device id
      and batch sizes scaled by the GPU count. */
  lemma NoSpawnStillSelectsDdp(c: Config, host: Host, d: Defaults, load: Loader)
    requires c.ddp.rank.Some?
    requires c.dev.numGpus > 1 && !c.ddp.disable
    requires c.ddp.noSpawn || !host.cudaAvailable
    ensures PlanLaunch(c, host).Success? && PlanLaunch(c, host).value.InProcess?
    ensures var p := PlanLaunch(c, host).value.config;
      && PrepareRun(p, d, load).mode == Ddp
      && p.dev.deviceId.None?
      && p.dataset.trainBatchSize == c.dataset.trainBatchSize * c.dev.numGpus
      && p.dataset.valBatchSize == c.dataset.valBatchSize * c.dev.numGpus
  {
  }

  /** A CPU run (no GPU) is planned in process and leaves `ddp.world_size`
      exactly as configured, the sentinel -1 included. */
  lemma CpuRunKeepsWorldSize(c: Config, host: Host, d: Defaults, load: Loader)
    requires c.ddp.rank.Some? && c.dev.numGpus == 0
    ensures PlanLaunch(c, host).Success? && PlanLaunch(c, host).value.InProcess?
    ensures var p := PlanLaunch(c, host).value.config;
      && PrepareRun(p, d, load).mode == Cpu
      && p.ddp.worldSize == c.ddp.worldSize
      && p.dataset.trainBatchSize == c.dataset.trainBatchSize
      && p.dataset.valBatchSize == c.dataset.valBatchSize
  {
  }
}

=== FILE: wrappers.dfy ===
/** Failure-carrying wrappers used throughout the model: `Option` for a
    configuration key that may hold no value, `Result` for an operation that
    can stop the launcher with an error. */
module Wrappers {

  /** A value that may be absent (Python's `None`). */
  datatype Option<+T> = None | Some(value: T)

  /** The outcome of an operation that either succeeds with a value or fails
      with an error. */
  datatype Result<+R, +E> = Success(value: R) | Failure(error: E)
}
